=== FILE: README.md ===
# zipkin-simple in Dafny

A model of the trace/span state machine of `zipkin-simple`, a small client
that reports spans to a Zipkin collector in the version 1 JSON format. The
model covers:

- **Identifier generation** (`generateId`). Sixteen random hex draws are
  written out with the leading zero draws skipped.
- **The periodic sampler** (`shouldSample`). One counter per client; a root
  trace is sampled each time `counter * sampling` reaches 1.
- **Trace contexts** (`createRootTrace`, `getChild`). Roots have
  `traceId == spanId` and no parent. Children keep the trace id and the
  sampling decision, and name their parent's span.
- **Span assembly** (`sendTrace`). One wire body per call. The entries of the
  call data's annotation list decide which body carries `timestamp` and
  `duration`.
- **The record operations** (`traceWithAnnotation`, `sendClientSend`,
  `sendClientRecv`, `sendServerSend`, `sendServerRecv`).
- **Options** (the constructor's defaults and `setOptions`), treated as a
  shallow map merge.

Everything is pure. A client is a value `Client(counter, options)`, and every
operation returns the client after it. The outside world is an
`Env(random, clock)`: a stream of random draws (each in 0..15) and a stream
of millisecond clock readings. `clock(k)` is the k-th reading taken during
one public call. A record operation that creates a root spends `clock(0)` on
the root's timestamp. `sendTrace` then takes the next reading as the time
every annotation carries, and any further readings are the fallbacks for the
span's own `timestamp`. The HTTP POST is replaced by a returned
`Delivery(body, options)`: the body and the options `send` is given.

Modules, one per component: `Optional`, `Identifiers`, `Sampler`, `Config`,
`Environment`, `Lineage`, `Assembly`, `Recording`.

Behaviour of the code worth noting, all of it modelled:

- `parentId` is put on the body when `parentSpanId` is *truthy*: present and
  not the empty string (zipkin-simple.js:109-111). An empty parent span id
  leaves the field off.
- An identifier can be the empty string, if all sixteen draws are zero
  (zipkin-simple.js:47). Otherwise it has 1 to 16 characters.
- `timestamp` and `duration` depend on *every* entry of the caller's
  `data.annotations`, not only on the annotation of this call. The client
  appends to the caller's own list, so a caller who passes the same data
  object to two calls gets both entries in the second span
  (`Recording.ReusedCallDataAccumulates`).
- When the trace's timestamp is 0 (falsy), the body's `timestamp` is a fresh
  clock reading. If several opening entries each take one, the last reading
  is the one kept (zipkin-simple.js:130).
- The repository's test file is written against an older singleton API
  with snake_case fields, and it expects a body `timestamp` on "cr", "ss"
  and "sr" spans, which zipkin-simple.js:125-131 does not produce. The model
  follows zipkin-simple.js.

## Model

| member | source | states |
|---|---|---|
| `Environment.Timestamp` | zipkin-simple.js:35-38 | A timestamp is a whole number of microseconds, and dividing by 1000 gives back the millisecond reading. |
| `Identifiers.GenerateId` | zipkin-simple.js:40-52 | The id is the hex characters of the draws with leading zero draws removed. It has at most 16 characters, all from "0123456789abcdef", and never starts with '0'. It is empty exactly when every draw is zero. |
| `Identifiers.AppendDraws` | zipkin-simple.js:43-50 | Running the loop from draw i on the string built so far yields the stripped hex string of all the draws (the loop invariant). |
| `Identifiers.LoopStep` | zipkin-simple.js:46-49 | One iteration keeps the string equal to the stripped hex string of the draws consumed so far. |
| `Identifiers.DropLeadingZeros` | zipkin-simple.js:46-49 | The kept draws are no longer than the input. They are empty or start with a non-zero draw, and every dropped draw is zero. |
| `Identifiers.DropLeadingZerosIsSuffix` | zipkin-simple.js:46-49 | What is kept is exactly a tail of the draws. |
| `Identifiers.DropLeadingZerosSnoc` | zipkin-simple.js:47-48 | A new draw is appended unless everything so far was dropped and it is zero too. |
| `Identifiers.HexStringOfStripped` | zipkin-simple.js:8 | Writing out stripped draws gives only alphabet characters and no leading '0'. |
| `Identifiers.DigitCharIsZeroOnlyForZero` | zipkin-simple.js:8 | A draw selects '0' exactly when the draw is 0. |
| `Identifiers.HexOfValue` | zipkin-simple.js:40-52 | Stripping and writing out the draws is the canonical hex rendering of the number they denote. |
| `Identifiers.ValueBound` | zipkin-simple.js:7 | k draws denote a number below 16^k. |
| `Identifiers.GeneratedIdIsHexOfValue` | zipkin-simple.js:40-52 | Every generated id is the hex rendering, leading zeros stripped, of a number below 2^64. This is the same as drawing one 64-bit value. |
| `Sampler.ShouldSample` | zipkin-simple.js:59-68 | A call samples exactly when (counter + 1) * rate ≥ 1, so a rate of 0 or below never samples. After any call, counter * rate < 1. A call samples exactly when it resets the counter to 0. An unsampled call only increments it. |
| `Sampler.Repeat` | zipkin-simple.js:59-68 | n successive calls give one decision each, and after at least one call the counter left behind keeps counter * rate < 1. |
| `Sampler.RepeatEnds` | zipkin-simple.js:59-68 | The last call of a run samples exactly when the final counter is 0. A run with no sampled call leaves counter + n. |
| `Sampler.NonPositiveRateNeverSamples` | zipkin-simple.js:62 | At a rate of 0 or below (`sampling: 0` or `false`) no call of any run samples, and the counter climbs by one per call. |
| `Sampler.FullOrHigherRateAlwaysSamples` | zipkin-simple.js:62-65 | At a rate of 1 or more, every call of any run samples and the counter ends at 0, whatever it started at. |
| `Sampler.TimesIsProduct` | zipkin-simple.js:62 | The repeated-addition product the model compares equals counter * sampling. |
| `Sampler.Period` | zipkin-simple.js:62 | Every positive rate has a period p ≥ 1 with (p-1) * rate < 1 ≤ p * rate. |
| `Sampler.PeriodIsUnique` | zipkin-simple.js:62 | A rate has only one period. |
| `Sampler.StepWithinPeriod` | zipkin-simple.js:59-68 | From a counter below the period, a call samples exactly when it brings the counter to the period. The counter becomes (counter + 1) mod p. |
| `Sampler.RepeatIsPeriodic` | zipkin-simple.js:59-68 | From a counter below the period, over n successive calls, call i samples exactly when counter + i + 1 is a multiple of the period. The final counter is (counter + n) mod p. |
| `Sampler.AtOrAbovePeriodResets` | zipkin-simple.js:59-68 | A counter at or above the period, which raising `sampling` through setOptions can leave behind, makes the next call sample and reset to 0. From then on RepeatIsPeriodic applies. |
| `Sampler.FreshClientSamplesOncePerPeriod` | zipkin-simple.js:55-68 | From a fresh client (counter 0), call i samples exactly when i + 1 is a multiple of the rate's period. |
| `Sampler.HalfRateAlternates` | zipkin-simple.js:55-68 | At rate 0.5 a fresh client decides false, true, false, true. |
| `Sampler.FullRateAlwaysSamples` | zipkin-simple.js:55-68 | At rate 1 every call samples and the counter stays 0. |
| `Sampler.DefaultRatePeriodIsTen` | zipkin-simple.js:11 | At the default rate 0.1 the period is 10. |
| `Config.Assign` | zipkin-simple.js:176 | Object.assign on options: the source's keys overwrite, the target's other keys are kept, and no other key appears. |
| `Config.NewClient` | zipkin-simple.js:54-57 | A new client has counter 0. Its options are the defaults with the caller's keys overriding. |
| `Config.SetOptions` | zipkin-simple.js:174-180 | A null argument changes nothing. Otherwise the given keys overwrite and the rest are kept. The counter is untouched, and the returned options are the client's options. |
| `Config.SetOptionsIdempotent` | zipkin-simple.js:174-180 | Setting the same options twice is the same as setting them once. |
| `Config.ConstructThenSet` | zipkin-simple.js:56 | Constructing with a and then setting b equals constructing with a merged with b. |
| `Config.SamplingOptionDecides` | zipkin-simple.js:62 | How the `sampling` option drives the sampler: `true` samples every root trace, while `false`, a string or a missing option never samples one, and the counter only climbs. |
| `Config.SetSamplingRate` | zipkin-simple.js:174-180 | After setOptions with a numeric `sampling`, the sampler uses that number. Options without `sampling` leave the rate unchanged. |
| `Config.DefaultRate` | zipkin-simple.js:10-16 | A client built without options samples at rate 0.1. |
| `Lineage.CreateRootTrace` | zipkin-simple.js:70-80 | traceId == spanId, and that id is the canonical hex of the draws. There is no parent and no server-only mark. The sampled flag and the new counter are exactly one ShouldSample step. |
| `Lineage.GetChild` | zipkin-simple.js:82-94 | With no parent it is CreateRootTrace. Otherwise the child has the parent's traceId and sampled flag, parentSpanId is the parent's spanId, the span id is fresh, and the client (counter) is unchanged. |
| `Lineage.DescendantsKeepTraceAndSampling` | zipkin-simple.js:87-93 | Any chain of derivations keeps the ancestor's traceId and sampled flag. Every proper descendant has a parent. |
| `Lineage.RootChildPointsAtTrace` | zipkin-simple.js:70-93 | A root's child names the trace id as its parent span, and deriving it leaves the client unchanged. |
| `Assembly.AnyClosing` | zipkin-simple.js:125 | Holds exactly when some entry is "cr", or is "ss" on a server-only trace. |
| `Assembly.AnyOpening` | zipkin-simple.js:129 | Holds exactly when some entry is "cs", or is "sr" on a server-only trace. |
| `Assembly.CountOpening` | zipkin-simple.js:129-130 | The number of opening entries is 0 exactly when no entry opens the span. |
| `Assembly.Entries` | zipkin-simple.js:114-124 | There is one wire annotation per entry, in order, each with that entry's value, the one time, and the endpoint {service, 0, 0}. |
| `Assembly.Iteration` | zipkin-simple.js:114-132 | One loop iteration changes only the annotations, duration and timestamp of the body. |
| `Assembly.SendLoop` | zipkin-simple.js:114-132 | The loop never changes traceId, name, id, parentId or binaryAnnotations. |
| `Assembly.SendLoopAnnotations` | zipkin-simple.js:114-124 | The loop appends exactly one entry per remaining value, in order. |
| `Assembly.SendLoopDuration` | zipkin-simple.js:125-127 | The loop leaves duration = time - trace.timestamp exactly when a remaining entry closes the span. Otherwise the old value stays. |
| `Assembly.SendLoopTimestamp` | zipkin-simple.js:129-131 | The loop leaves a timestamp exactly when a remaining entry opens the span. The value is the trace's timestamp if non-zero, else the last fallback clock reading. |
| `Assembly.AssembleBody` | zipkin-simple.js:101-132 | traceId, id and name come from the trace and the data. binaryAnnotations is empty. parentId is present iff parentSpanId is truthy. There is one entry per data annotation, with the same value, one time and endpoint. duration is present iff some entry closes the span, and timestamp is present iff some entry opens it, with the values of the rules above. |
| `Recording.TraceWithAnnotation` | zipkin-simple.js:137-151 | A null trace becomes a fresh root (one sampler step). An unsampled trace is returned with no delivery and the data untouched. A sampled one gets exactly the annotation appended to data.annotations and exactly one delivery, ending in that annotation. The trace is always returned. |
| `Recording.SendClientSend` | zipkin-simple.js:153-155 | With no trace, the trace and client are those of CreateRootTrace. A sampled trace gets "cs" appended to the caller's list, and the delivered body is the assembled body of that trace and list. A delivered span always carries a timestamp, equal to the trace's timestamp when that is non-zero. |
| `Recording.SendClientRecv` | zipkin-simple.js:157-159 | With no trace, the trace and client are those of CreateRootTrace. A sampled trace gets "cr" appended to the caller's list, and the delivered body is the assembled body of that trace and list. A delivered span always carries duration = annotation time - trace.timestamp. |
| `Recording.SendServerSend` | zipkin-simple.js:161-163 | With no trace, the trace and client are those of CreateRootTrace. A sampled trace gets "ss" appended to the caller's list, and the delivered body is the assembled body of that trace and list. On a server-only trace the span carries the duration. Otherwise it has a duration iff the caller's list already held a "cr". |
| `Recording.SendServerRecv` | zipkin-simple.js:165-172 | With no trace it creates a root (one sampler step) stamped with the first clock reading and marked server-only. A given trace is passed on unchanged. A sampled trace gets "sr" appended to the caller's list, and the delivered body is the assembled body of that trace and list. On a server-only trace the body always has a timestamp, equal to the trace's timestamp when that is non-zero. Without the mark, a timestamp appears iff the list held a "cs". |
| `Recording.ChildSpanBody` | zipkin-simple.js:96-111 | A child context's span is sent exactly when the parent was sampled, with the client's options, the parent's trace id and the child's span id. Its `parentId` is the parent's span id unless that id is empty (falsy), in which case it is absent. |
| `Recording.RootSpanBody` | zipkin-simple.js:96-111 | A root context's span is sent exactly when the sampler chose the root. It has no `parentId`, and its id equals its trace id. |
| `Recording.ClientSendWithoutTrace` | zipkin-simple.js:137-155 | A client send with no trace takes one sampler step to create the root. A sent span has no parent, its trace id and span id are the new trace's id, and it holds exactly one "cs" entry stamped with the second clock reading. |
| `Recording.ClosingWithoutServerOnly` | zipkin-simple.js:125 | Without the server-only mark only "cr" closes the span. |
| `Recording.OpeningWithoutServerOnly` | zipkin-simple.js:129 | Without the server-only mark only "cs" opens the span. |
| `Recording.ClientSpanAcrossTwoCalls` | zipkin-simple.js:125-131 | With fresh data for each call, "cs" then "cr" on one sampled trace, with or without the server-only mark, gives a span with only a timestamp, then a span with only a duration. |
| `Recording.ServerOnlySpanAcrossTwoCalls` | zipkin-simple.js:165-169 | "sr" with no trace, then "ss" on the returned trace: if sampled, the first span has no duration and a timestamp, which is the root's timestamp (the first clock reading, times 1000) when non-zero. The second span has no timestamp and duration = time - root timestamp. If not sampled, nothing is sent. |
| `Recording.ServerOnlyDurationIsElapsed` | zipkin-simple.js:125-127 | For "sr" with no trace, then "ss" on the returned trace, the delivered duration is 1000 times the milliseconds between the first clock reading of each call. |
| `Recording.PropagatedServerSpanHasNoTiming` | zipkin-simple.js:125-131 | "sr" then "ss" on a propagated (not server-only) trace gives spans with neither timestamp nor duration. |
| `Recording.ReusedCallDataAccumulates` | zipkin-simple.js:146-147 | On any sampled trace, reusing one data object for "cs" then "cr" makes the second span carry both entries, a timestamp and a duration. |

## Left out

- HTTP delivery (zipkin-simple.js:18-33): the POST to
  `http://host:port/path`, the 200/202 status check and the debug logging
  are network I/O and a foreign library. The model returns the body and
  options handed to `send` instead.
- The clock (zipkin-simple.js:35-38): `Date.getTime()` readings are the
  `Env.clock` input. The multiplication by 1000 is modelled.
- The random source (zipkin-simple.js:44): `Math.random()` draws are the
  `Env.random` input, already floored to 0..15.
- Floating point: `sampling` is an exact `real`, and `counter * sampling` is
  exact. IEEE rounding of the product is not reproduced.
- Config.Rate: only numbers and booleans are read as rates. A string-valued
  `sampling` is treated as never sampling, whereas JavaScript would coerce a
  numeric string to its number.
- Config.Assign: option values cannot be `undefined`. `Object.assign`
  copying an explicit `undefined` over a default is not modelled.
- Caller-supplied trace objects with a missing or non-numeric `timestamp`:
  the model's timestamp is an integer, so a NaN duration cannot arise. A
  missing `sampled` or `serverOnly` is modelled as false, which matches
  JavaScript truthiness.
- Lineage.Trace: `traceId` and `spanId` are always strings. A caller-supplied
  trace missing either makes the body's `traceId` or `id` undefined, and
  JSON serialisation drops the field (zipkin-simple.js:102,
  zipkin-simple.js:104). A child of such a parent gets an undefined
  `traceId` or `parentSpanId` (zipkin-simple.js:87-88). The model always
  writes these fields.
- Lineage.GetChild: a fresh span id is not proved to differ from the
  parent's. Both come from independent random draws, and equal draws give
  equal ids.
- Recording.TraceWithAnnotation: `data` is always an object. A null or
  undefined `data` on a sampled trace makes zipkin-simple.js:146 throw a
  TypeError, and the model has no such failure path.
- Assembly.AssembleBody: `data.name` and `data.service` are always strings.
  When the caller leaves either out, JSON serialisation drops the `name` or
  `serviceName` field (zipkin-simple.js:103, zipkin-simple.js:117). The model
  always writes a field.
- Config.SetOptions: the returned options are a value. zipkin-simple.js:179
  returns the client's live options object, so a caller who later mutates it
  changes the client's options, including its sampling rate. The model has
  no shared references.
- The snake_case aliases (zipkin-simple.js:182-187) are pure renaming.
- Concurrency on the shared counter: the model is sequential.

=== FILE: assembly.dfy ===
/** Building the wire span (`sendTrace` in zipkin-simple.js).

    One body is built per call from the trace context and the call data; it
    carries one annotation per entry of the call data's annotation list, and
    the list decides whether the body carries the span's `timestamp` and
    `duration`. The HTTP POST itself is not modelled: what is handed to it
    is returned as a `Delivery`. */
module Assembly {
  import opened Optional
  import opened Config
  import opened Environment
  import opened Lineage

  datatype Endpoint = Endpoint(serviceName: string, ipv4: int, port: int)

  datatype Annotation = Annotation(endpoint: Endpoint, timestamp: int, value: string)

  /** Key/value span tags; the client never produces any. */
  datatype BinaryAnnotation = BinaryAnnotation(key: string, value: string, endpoint: Endpoint)

  /** A span in the collector's version 1 JSON shape; absent optional fields
      are `None`. */
  datatype Body = Body(
    traceId: string,
    name: string,
    id: string,
    parentId: Option<string>,
    timestamp: Option<int>,
    duration: Option<int>,
    annotations: seq<Annotation>,
    binaryAnnotations: seq<BinaryAnnotation>)

  /** The caller's `data` argument. `annotations` is the list the client
      appends to; a missing list behaves as an empty one. */
  datatype CallData = CallData(service: string, name: string, annotations: seq<string>)

  /** What `send(body, options)` is given. */
  datatype Delivery = Delivery(body: Body, options: Options)

  /** Annotations that close the span and so give the body a duration: a
      client receive, or a server send on a server-only trace. */
  predicate SetsDuration(value: string, serverOnly: bool)
  {
    value == "cr" || (value == "ss" && serverOnly)
  }

  /** Annotations that open the span and so give the body a timestamp: a
      client send, or a server receive on a server-only trace. */
  predicate SetsTimestamp(value: string, serverOnly: bool)
  {
    value == "cs" || (value == "sr" && serverOnly)
  }

  /** JavaScript truthiness of a nullable string: null and "" are false. */
  predicate Truthy(s: Option<string>)
    ensures Truthy(s) <==> s != None && s != Some("")
  {
    s.Some? && s.value != ""
  }

  /** Whether some entry of `values` closes the span. */
  function AnyClosing(values: seq<string>, serverOnly: bool): (b: bool)
    ensures b <==> exists j :: 0 <= j < |values| && SetsDuration(values[j], serverOnly)
  {
    if values == [] then false
    else SetsDuration(values[0], serverOnly) || AnyClosing(values[1..], serverOnly)
  }

  /** Whether some entry of `values` opens the span. */
  function AnyOpening(values: seq<string>, serverOnly: bool): (b: bool)
    ensures b <==> exists j :: 0 <= j < |values| && SetsTimestamp(values[j], serverOnly)
  {
    if values == [] then false
    else SetsTimestamp(values[0], serverOnly) || AnyOpening(values[1..], serverOnly)
  }

  /** How many entries of `values` open the span. */
  function CountOpening(values: seq<string>, serverOnly: bool): (n: nat)
    ensures n <= |values|
    ensures n == 0 <==> !AnyOpening(values, serverOnly)
  {
    if values == [] then 0
    else (if SetsTimestamp(values[0], serverOnly) then 1 else 0)
         + CountOpening(values[1..], serverOnly)
  }

  /** The wire annotation for one entry of the call data. */
  function Entry(service: string, time: int, value: string): Annotation
  {
    Annotation(Endpoint(service, 0, 0), time, value)
  }

  /** One wire annotation per entry, in order, all with the same service and
      time. */
  function Entries(service: string, time: int, values: seq<string>): (es: seq<Annotation>)
    ensures |es| == |values|
    ensures forall j :: 0 <= j < |values| ==> es[j] == Entry(service, time, values[j])
  {
    if values == [] then []
    else [Entry(service, time, values[0])] + Entries(service, time, values[1..])
  }

  /** What the `for` loop of `sendTrace` carries from one entry to the next:
      the body under construction and how many fallback clock readings it
      has taken. `clock(0)` gave the time every entry carries, so the k-th
      fallback reading is `clock(k)`. */
  datatype LoopState = LoopState(body: Body, taken: nat)

  /** One iteration of the loop, for the entry `value`: append its wire
      annotation, set the duration if it closes the span, and set the
      timestamp if it opens the span, reading the clock again when the
      trace's own timestamp is zero (falsy). */
  function Iteration(trace: Trace, service: string, time: int, clock: nat -> int,
                     value: string, s: LoopState): (r: LoopState)
    ensures r.body.traceId == s.body.traceId && r.body.name == s.body.name && r.body.id == s.body.id
    ensures r.body.parentId == s.body.parentId && r.body.binaryAnnotations == s.body.binaryAnnotations
  {
    var b1 := s.body.(annotations := s.body.annotations + [Entry(service, time, value)]);
    var b2 := if SetsDuration(value, trace.serverOnly)
              then b1.(duration := Some(time - trace.timestamp)) else b1;
    if SetsTimestamp(value, trace.serverOnly) then
      if trace.timestamp != 0 then
        LoopState(b2.(timestamp := Some(trace.timestamp)), s.taken)
      else
        LoopState(b2.(timestamp := Some(Timestamp(clock(s.taken + 1)))), s.taken + 1)
    else
      LoopState(b2, s.taken)
  }

  /** The loop over entries `i` to the end. */
  function SendLoop(trace: Trace, data: CallData, time: int, clock: nat -> int,
                    i: nat, s: LoopState): (r: LoopState)
    requires i <= |data.annotations|
    ensures r.body.traceId == s.body.traceId && r.body.name == s.body.name && r.body.id == s.body.id
    ensures r.body.parentId == s.body.parentId && r.body.binaryAnnotations == s.body.binaryAnnotations
    decreases |data.annotations| - i
  {
    if i == |data.annotations| then s
    else SendLoop(trace, data, time, clock, i + 1,
                  Iteration(trace, data.service, time, clock, data.annotations[i], s))
  }

  /** The entries of a tail of the values are the entry of its first value
      followed by the entries of the rest. */
  lemma EntriesCons(service: string, time: int, values: seq<string>, i: nat)
    requires i < |values|
    ensures Entries(service, time, values[i..])
         == [Entry(service, time, values[i])] + Entries(service, time, values[i + 1..])
  {
    assert values[i..][1..] == values[i + 1..];
  }

  /** The loop appends one entry per remaining annotation value, in order. */
  lemma {:induction false} SendLoopAnnotations(trace: Trace, data: CallData, time: int, clock: nat -> int,
                                               i: nat, s: LoopState)
    requires i <= |data.annotations|
    ensures SendLoop(trace, data, time, clock, i, s).body.annotations
         == s.body.annotations + Entries(data.service, time, data.annotations[i..])
    decreases |data.annotations| - i
  {
    if i < |data.annotations| {
      var e := Entry(data.service, time, data.annotations[i]);
      var next := Iteration(trace, data.service, time, clock, data.annotations[i], s);
      assert next.body.annotations == s.body.annotations + [e];
      SendLoopAnnotations(trace, data, time, clock, i + 1, next);
      EntriesCons(data.service, time, data.annotations, i);
      var rest := Entries(data.service, time, data.annotations[i + 1..]);
      assert s.body.annotations + [e] + rest == s.body.annotations + ([e] + rest);
    }
  }

  /** The loop leaves a duration of `time - trace.timestamp` exactly when
      some remaining entry closes the span, and otherwise keeps the old one. */
  lemma {:induction false} SendLoopDuration(trace: Trace, data: CallData, time: int, clock: nat -> int,
                                            i: nat, s: LoopState)
    requires i <= |data.annotations|
    ensures SendLoop(trace, data, time, clock, i, s).body.duration
         == if AnyClosing(data.annotations[i..], trace.serverOnly)
            then Some(time - trace.timestamp) else s.body.duration
    decreases |data.annotations| - i
  {
    if i < |data.annotations| {
      var next := Iteration(trace, data.service, time, clock, data.annotations[i], s);
      SendLoopDuration(trace, data, time, clock, i + 1, next);
      assert data.annotations[i..][1..] == data.annotations[i + 1..];
    }
  }

  /** The loop leaves a timestamp exactly when some remaining entry opens the
      span: the trace's own timestamp when that is non-zero, and otherwise
      the last fallback clock reading. Without such an entry the old value
      stays. */
  lemma {:induction false} SendLoopTimestamp(trace: Trace, data: CallData, time: int, clock: nat -> int,
                                             i: nat, s: LoopState)
    requires i <= |data.annotations|
    ensures SendLoop(trace, data, time, clock, i, s).body.timestamp
         == if AnyOpening(data.annotations[i..], trace.serverOnly)
            then Some(if trace.timestamp != 0 then trace.timestamp
                      else Timestamp(clock(s.taken + CountOpening(data.annotations[i..], trace.serverOnly))))
            else s.body.timestamp
    decreases |data.annotations| - i
  {
    if i < |data.annotations| {
      var next := Iteration(trace, data.service, time, clock, data.annotations[i], s);
      SendLoopTimestamp(trace, data, time, clock, i + 1, next);
      assert data.annotations[i..][1..] == data.annotations[i + 1..];
    }
  }

  /** The body `sendTrace` builds from a trace, the call data and the clock
      readings it takes (`clock(0)` is the time every entry carries). */
  function AssembleBody(trace: Trace, data: CallData, clock: nat -> int): (r: Body)
    ensures r.traceId == trace.traceId && r.id == trace.spanId && r.name == data.name
    ensures r.binaryAnnotations == []
    ensures r.parentId.Some? <==> Truthy(trace.parentSpanId)
    ensures r.parentId.Some? ==> r.parentId == trace.parentSpanId
    ensures |r.annotations| == |data.annotations|
    ensures forall j :: 0 <= j < |data.annotations| ==>
              r.annotations[j].value == data.annotations[j]
              && r.annotations[j].timestamp == Timestamp(clock(0))
              && r.annotations[j].endpoint == Endpoint(data.service, 0, 0)
    ensures r.duration.Some? <==>
              exists j :: 0 <= j < |data.annotations| && SetsDuration(data.annotations[j], trace.serverOnly)
    ensures r.duration.Some? ==> r.duration.value == Timestamp(clock(0)) - trace.timestamp
    ensures r.timestamp.Some? <==>
              exists j :: 0 <= j < |data.annotations| && SetsTimestamp(data.annotations[j], trace.serverOnly)
    ensures r.timestamp.Some? && trace.timestamp != 0 ==> r.timestamp.value == trace.timestamp
    ensures r.timestamp.Some? && trace.timestamp == 0 ==>
              r.timestamp.value == Timestamp(clock(CountOpening(data.annotations, trace.serverOnly)))
  {
    var parentId := if Truthy(trace.parentSpanId) then trace.parentSpanId else None;
    var empty := Body(trace.traceId, data.name, trace.spanId, parentId, None, None, [], []);
    var time := Timestamp(clock(0));
    assert data.annotations[0..] == data.annotations;
    var start := LoopState(empty, 0);
    SendLoopAnnotations(trace, data, time, clock, 0, start);
    SendLoopDuration(trace, data, time, clock, 0, start);
    SendLoopTimestamp(trace, data, time, clock, 0, start);
    SendLoop(trace, data, time, clock, 0, start).body
  }

  /** `sendTrace`: nothing is sent for an unsampled trace; otherwise the
      assembled body goes out with the client's options. */
  function SendTrace(c: Client, trace: Trace, data: CallData, clock: nat -> int): (r: Option<Delivery>)
    ensures r.Some? <==> trace.sampled
    ensures r.Some? ==> r.value.options == c.options
    ensures r.Some? ==> r.value.body == AssembleBody(trace, data, clock)
  {
    if !trace.sampled then None else Some(Delivery(AssembleBody(trace, data, clock), c.options))
  }
}

=== FILE: config.dfy ===
/** Client configuration and state (the `zipkinSimple` constructor and
    `setOptions`).

    Options are a JavaScript object; here they are a map from option name to
    value, and `Object.assign` is the right-biased union of two maps. */
module Config {
  import opened Optional
  import opened Sampler

  /** An option value as the client reads it. */
  datatype Value = Num(n: real) | Flag(b: bool) | Text(s: string)

  type Options = map<string, Value>

  /** The options a client starts from before the caller's are merged in. */
  const Defaults: Options := map[
    "sampling" := Num(0.1),
    "debug" := Flag(false),
    "host" := Text("127.0.0.1"),
    "port" := Text("9411"),
    "path" := Text("/api/v1/spans")
  ]

  /** `Object.assign(target, source)` on options: every key of `source`
      overwrites, every other key of `target` is kept, nothing else appears. */
  function Assign(target: Options, source: Options): (r: Options)
    ensures r.Keys == target.Keys + source.Keys
    ensures forall k :: k in source ==> r[k] == source[k]
    ensures forall k :: k in target && k !in source ==> r[k] == target[k]
  {
    target + source
  }

  /** The state one client instance owns: the sampler counter and its
      options. */
  datatype Client = Client(counter: nat, options: Options)

  /** `new zipkinSimple(opts)`: counter zero, caller options over the
      defaults. Leaving the argument out is the same as passing no keys. */
  function NewClient(opts: Options): (c: Client)
    ensures c.counter == 0
    ensures c.options.Keys == Defaults.Keys + opts.Keys
    ensures forall k :: k in opts ==> c.options[k] == opts[k]
    ensures forall k :: k in Defaults && k !in opts ==> c.options[k] == Defaults[k]
  {
    Client(0, Assign(Defaults, opts))
  }

  /** The effective options `setOptions` hands back, and the client after. */
  datatype Configured = Configured(client: Client, effective: Options)

  /** `setOptions(opts)`: a null argument changes nothing; otherwise the
      given keys overwrite and the rest are kept. The counter is untouched and
      the result is the client's options after the merge. */
  function SetOptions(c: Client, opts: Option<Options>): (r: Configured)
    ensures r.effective == r.client.options
    ensures r.client.counter == c.counter
    ensures opts.None? ==> r.client == c
    ensures opts.Some? ==> r.client.options.Keys == c.options.Keys + opts.value.Keys
    ensures opts.Some? ==> forall k :: k in opts.value ==> r.effective[k] == opts.value[k]
    ensures opts.Some? ==> forall k :: k in c.options && k !in opts.value ==> r.effective[k] == c.options[k]
  {
    var c' := if opts.Some? then c.(options := Assign(c.options, opts.value)) else c;
    Configured(c', c'.options)
  }

  /** Applying the same options twice is the same as applying them once. */
  lemma SetOptionsIdempotent(c: Client, opts: Option<Options>)
    ensures SetOptions(SetOptions(c, opts).client, opts) == SetOptions(c, opts)
  {
  }

  /** Constructing with `a` and then setting `b` gives the options of
      constructing with `a` merged with `b`. */
  lemma ConstructThenSet(a: Options, b: Options)
    ensures SetOptions(NewClient(a), Some(b)).client == NewClient(Assign(a, b))
  {
  }

  /** The sampling rate the sampler multiplies by. A number is used as is;
      JavaScript turns `true`/`false` into 1/0; a missing option (undefined,
      so the product is NaN) never reaches 1, which is what rate 0 does too. */
  function Rate(options: Options): (r: real)
    ensures "sampling" !in options ==> r == 0.0
    ensures "sampling" in options && options["sampling"].Num? ==> r == options["sampling"].n
    ensures "sampling" in options && options["sampling"] == Flag(true) ==> r == 1.0
    ensures "sampling" in options && options["sampling"] == Flag(false) ==> r == 0.0
    ensures "sampling" in options && options["sampling"].Text? ==> r == 0.0
  {
    if "sampling" !in options then 0.0
    else match options["sampling"]
      case Num(n) => n
      case Flag(b) => if b then 1.0 else 0.0
      case Text(_) => 0.0
  }

  /** A client built without options samples at the default rate 0.1. */
  lemma DefaultRate()
    ensures Rate(NewClient(map[]).options) == 0.1
  {
  }

  /** What the `sampling` option means for the sampler: `true` samples every
      root trace, while `false`, a string or a missing option never samples
      one, and the counter only climbs. */
  lemma SamplingOptionDecides(c: Client, n: nat)
    ensures "sampling" in c.options && c.options["sampling"] == Flag(true) ==>
              forall i :: 0 <= i < n ==> Repeat(c.counter, Rate(c.options), n).decisions[i]
    ensures ("sampling" !in c.options || c.options["sampling"] == Flag(false) || c.options["sampling"].Text?) ==>
              (forall i :: 0 <= i < n ==> !Repeat(c.counter, Rate(c.options), n).decisions[i])
              && Repeat(c.counter, Rate(c.options), n).counter == c.counter + n
  {
    if Rate(c.options) >= 1.0 {
      FullOrHigherRateAlwaysSamples(c.counter, Rate(c.options), n);
    } else if Rate(c.options) <= 0.0 {
      NonPositiveRateNeverSamples(c.counter, Rate(c.options), n);
    }
  }

  /** Setting a numeric `sampling` makes it the rate the sampler uses, and
      setting options without `sampling` leaves the rate alone. */
  lemma SetSamplingRate(c: Client, opts: Options)
    ensures "sampling" in opts && opts["sampling"].Num? ==>
              Rate(SetOptions(c, Some(opts)).client.options) == opts["sampling"].n
    ensures "sampling" !in opts ==> Rate(SetOptions(c, Some(opts)).client.options) == Rate(c.options)
  {
  }
}

=== FILE: environment.dfy ===
/** What the client reads from outside itself during one public call: the
    random draws behind `Math.random` and the successive readings of
    `Date.getTime()`. Both are given as streams; reading `k` of the clock is
    `clock(k)`, in milliseconds. */
module Environment {
  import opened Identifiers

  datatype Env = Env(random: nat -> Digit, clock: nat -> int)

  /** `generateTimestamp` multiplies the millisecond clock by this. */
  const ToMicroseconds: int := 1000

  /** `generateTimestamp` for the millisecond reading `ms`: a whole number of
      microseconds from which the reading is recovered by division. */
  function Timestamp(ms: int): (t: int)
    ensures t % ToMicroseconds == 0
    ensures t / ToMicroseconds == ms
  {
    ms * ToMicroseconds
  }

  /** The gap between two timestamps (a span's `duration`) is the gap between
      the readings in microseconds, and later readings give later stamps. */
  lemma ElapsedMicroseconds(a: int, b: int)
    ensures Timestamp(b) - Timestamp(a) == (b - a) * ToMicroseconds
    ensures a <= b <==> Timestamp(a) <= Timestamp(b)
  {
  }

  /** The sixteen draws one `generateId` call consumes. */
  function IdDraws(env: Env): (ds: seq<Digit>)
    ensures |ds| == IdLength
  {
    seq<Digit>(IdLength, (i: nat) => env.random(i))
  }

  /** The identifier `generateId` produces from this environment. */
  function FreshId(env: Env): string
  {
    GenerateId(IdDraws(env))
  }

  /** The same environment with its first clock reading consumed. */
  function AfterTick(env: Env): Env
  {
    Env(env.random, (k: nat) => env.clock(k + 1))
  }
}

=== FILE: identifiers.dfy ===
/** Identifier generation (`generateId` in zipkin-simple.js).

    Sixteen random draws, each an index into the hexadecimal alphabet, are
    turned into a string; zero draws are skipped while the string is still
    empty, so identifiers have no leading zero and a variable length. The
    random source is not modelled: the draws are an input. */
module Identifiers {

  /** One draw: `Math.floor(Math.random() * 16)`, an index into IdDigits. */
  type Digit = d: int | 0 <= d < 16

  /** Number of draws per identifier. */
  const IdLength: nat := 16

  /** The alphabet identifiers are written in. */
  const IdDigits: string := "0123456789abcdef"

  /** The characters of `ds`, draw by draw. */
  function HexString(ds: seq<Digit>): string
  {
    seq(|ds|, i requires 0 <= i < |ds| => IdDigits[ds[i]])
  }

  /** `ds` with its leading zero draws removed: a suffix of `ds` that is
      empty or starts with a non-zero draw, and everything cut off is zero. */
  function DropLeadingZeros(ds: seq<Digit>): (r: seq<Digit>)
    ensures |r| <= |ds|
    ensures r != [] ==> r[0] != 0
    ensures forall i :: 0 <= i < |ds| - |r| ==> ds[i] == 0
  {
    if ds == [] || ds[0] != 0 then ds else DropLeadingZeros(ds[1..])
  }

  /** What is left after stripping is exactly the tail of the draws. */
  lemma {:induction false} DropLeadingZerosIsSuffix(ds: seq<Digit>)
    ensures ds[|ds| - |DropLeadingZeros(ds)|..] == DropLeadingZeros(ds)
  {
    if ds != [] && ds[0] == 0 {
      DropLeadingZerosIsSuffix(ds[1..]);
      assert ds[1..][|ds| - 1 - |DropLeadingZeros(ds)|..] == ds[|ds| - |DropLeadingZeros(ds)|..];
    }
  }

  /** The number the draws denote as a big-endian base-16 numeral. */
  function DrawsValue(ds: seq<Digit>): nat
  {
    if ds == [] then 0 else DrawsValue(ds[..|ds| - 1]) * 16 + ds[|ds| - 1]
  }

  /** The canonical lower-case hexadecimal rendering of `n`, without leading
      zeros (and empty for zero). */
  function ToHex(n: nat): string
  {
    if n == 0 then "" else ToHex(n / 16) + [IdDigits[n % 16]]
  }

  function Pow16(k: nat): nat
  {
    if k == 0 then 1 else 16 * Pow16(k - 1)
  }

  /** The character a draw selects is '0' exactly for the zero draw. */
  lemma DigitCharIsZeroOnlyForZero(d: Digit)
    ensures IdDigits[d] in IdDigits
    ensures (IdDigits[d] == '0') <==> d == 0
  {
    assert IdDigits == ['0', '1', '2', '3', '4', '5', '6', '7',
                        '8', '9', 'a', 'b', 'c', 'd', 'e', 'f'];
  }

  /** Appending one draw extends the stripped sequence by that draw, unless
      everything so far was zero and the new draw is zero as well. */
  lemma {:induction false} DropLeadingZerosSnoc(p: seq<Digit>, d: Digit)
    ensures DropLeadingZeros(p + [d])
         == if DropLeadingZeros(p) == [] && d == 0 then [] else DropLeadingZeros(p) + [d]
  {
    if p == [] {
      assert p + [d] == [d];
      assert [d][1..] == [];
    } else if p[0] != 0 {
    } else {
      assert (p + [d])[1..] == p[1..] + [d];
      DropLeadingZerosSnoc(p[1..], d);
    }
  }

  lemma HexStringSnoc(p: seq<Digit>, d: Digit)
    ensures HexString(p + [d]) == HexString(p) + [IdDigits[d]]
  {
  }

  /** Writing out a stripped draw sequence gives only alphabet characters
      and no leading '0'. */
  lemma HexStringOfStripped(kept: seq<Digit>)
    requires kept != [] ==> kept[0] != 0
    ensures forall i :: 0 <= i < |kept| ==> HexString(kept)[i] in IdDigits
    ensures HexString(kept) != "" ==> HexString(kept)[0] != '0'
  {
    forall i | 0 <= i < |kept|
      ensures HexString(kept)[i] in IdDigits
    {
      DigitCharIsZeroOnlyForZero(kept[i]);
    }
    if kept != [] {
      DigitCharIsZeroOnlyForZero(kept[0]);
    }
  }

  /** One iteration of the loop of `generateId` keeps the string equal to
      the stripped prefix of the draws consumed so far. */
  lemma LoopStep(n: string, draws: seq<Digit>, i: nat)
    requires i < |draws|
    requires n == HexString(DropLeadingZeros(draws[..i]))
    ensures (if draws[i] != 0 || |n| > 0 then n + [IdDigits[draws[i]]] else n)
         == HexString(DropLeadingZeros(draws[..i + 1]))
  {
    var p, d := draws[..i], draws[i];
    assert draws[..i + 1] == p + [d];
    DropLeadingZerosSnoc(p, d);
    var k := DropLeadingZeros(p);
    assert |n| == |k|;
    if d != 0 || |n| > 0 {
      HexStringSnoc(k, d);
    }
  }

  /** The for loop of `generateId` from draw `i` on, applied to the string
      `n` built from the first `i` draws. */
  function AppendDraws(n: string, draws: seq<Digit>, i: nat): (id: string)
    requires i <= |draws|
    requires n == HexString(DropLeadingZeros(draws[..i]))
    ensures id == HexString(DropLeadingZeros(draws))
    decreases |draws| - i
  {
    if i == |draws| then
      assert draws[..i] == draws;
      n
    else
      var rand := draws[i];
      var n' := if rand != 0 || |n| > 0 then n + [IdDigits[rand]] else n;
      LoopStep(n, draws, i);
      AppendDraws(n', draws, i + 1)
  }

  /** `generateId`: the hexadecimal characters of the draws, leading zero
      draws dropped. */
  function GenerateId(draws: seq<Digit>): (id: string)
    requires |draws| == IdLength
    ensures id == HexString(DropLeadingZeros(draws))
    ensures |id| <= IdLength
    ensures forall i :: 0 <= i < |id| ==> id[i] in IdDigits
    ensures id != "" ==> id[0] != '0'
    ensures id == "" <==> forall i :: 0 <= i < |draws| ==> draws[i] == 0
  {
    HexStringOfStripped(DropLeadingZeros(draws));
    DropLeadingZerosIsSuffix(draws);
    AppendDraws("", draws, 0)
  }

  /** The rendering of a positive number is never empty. */
  lemma ToHexEmptyOnlyForZero(n: nat)
    ensures ToHex(n) == "" <==> n == 0
  {
  }

  /** Stripping leading zeros and writing the draws out is the same as
      rendering the number they denote. */
  lemma {:induction false} HexOfValue(ds: seq<Digit>)
    ensures HexString(DropLeadingZeros(ds)) == ToHex(DrawsValue(ds))
    decreases |ds|
  {
    if ds != [] {
      var p, d := ds[..|ds| - 1], ds[|ds| - 1];
      assert ds == p + [d];
      HexOfValue(p);
      DropLeadingZerosSnoc(p, d);
      var v := DrawsValue(p) * 16 + d;
      assert DrawsValue(ds) == v;
      assert v / 16 == DrawsValue(p) && v % 16 == d;
      ToHexEmptyOnlyForZero(DrawsValue(p));
      if DropLeadingZeros(p) == [] && d == 0 {
        assert DrawsValue(p) == 0;
      } else {
        HexStringSnoc(DropLeadingZeros(p), d);
      }
    }
  }

  /** Sixteen draws denote a number below 16^16 = 2^64. */
  lemma {:induction false} ValueBound(ds: seq<Digit>)
    ensures DrawsValue(ds) < Pow16(|ds|)
    decreases |ds|
  {
    if ds != [] {
      ValueBound(ds[..|ds| - 1]);
    }
  }

  /** The identifier is the canonical hex rendering of a number below 2^64:
      generating it digit by digit is the same as drawing one 64-bit value
      and writing it in hex with its leading zeros stripped. */
  lemma GeneratedIdIsHexOfValue(draws: seq<Digit>)
    requires |draws| == IdLength
    ensures GenerateId(draws) == ToHex(DrawsValue(draws))
    ensures DrawsValue(draws) < 0x1_0000_0000_0000_0000
  {
    HexOfValue(draws);
    ValueBound(draws);
    assert Pow16(4) == 0x1_0000;
    assert Pow16(8) == 0x1_0000_0000 by {
      assert Pow16(8) == 16 * 16 * 16 * 16 * Pow16(4);
    }
    assert Pow16(12) == 0x1_0000_0000_0000 by {
      assert Pow16(12) == 16 * 16 * 16 * 16 * Pow16(8);
    }
    assert Pow16(16) == 0x1_0000_0000_0000_0000 by {
      assert Pow16(16) == 16 * 16 * 16 * 16 * Pow16(12);
    }
  }
}

=== FILE: lineage.dfy ===
/** Trace contexts and how they are derived (`createRootTrace` and
    `getChild` in zipkin-simple.js). */
module Lineage {
  import opened Optional
  import opened Identifiers
  import opened Sampler
  import opened Config
  import opened Environment

  /** A trace context. `parentSpanId` is null for a root; `serverOnly` is
      set only on a root synthesised for an inbound call that carried no
      context. */
  datatype Trace = Trace(
    traceId: string,
    spanId: string,
    parentSpanId: Option<string>,
    sampled: bool,
    timestamp: int,
    serverOnly: bool)

  /** A derived context and the client state after deriving it. */
  datatype Derived = Derived(trace: Trace, client: Client)

  /** `createRootTrace`: one fresh identifier serves as both trace and span
      id, there is no parent, and the sampling decision is exactly one
      `shouldSample` step on the client's counter. */
  function CreateRootTrace(c: Client, env: Env): (r: Derived)
    ensures r.trace.traceId == r.trace.spanId
    ensures r.trace.parentSpanId == None
    ensures r.trace.spanId == ToHex(DrawsValue(IdDraws(env)))
    ensures r.trace.sampled == ShouldSample(c.counter, Rate(c.options)).sampled
    ensures r.client == c.(counter := ShouldSample(c.counter, Rate(c.options)).counter)
    ensures r.trace.timestamp == Timestamp(env.clock(0))
    ensures !r.trace.serverOnly
  {
    GeneratedIdIsHexOfValue(IdDraws(env));
    var id := FreshId(env);
    var d := ShouldSample(c.counter, Rate(c.options));
    Derived(Trace(id, id, None, d.sampled, Timestamp(env.clock(0)), false), c.(counter := d.counter))
  }

  /** `getChild`: with no parent it is `createRootTrace`; otherwise the child
      keeps the parent's trace id and sampling decision, names the parent's
      span as its parent, gets a fresh span id, and the client's sampler
      counter is left alone. */
  function GetChild(c: Client, parent: Option<Trace>, env: Env): (r: Derived)
    ensures parent.None? ==> r == CreateRootTrace(c, env)
    ensures parent.Some? ==> r.client == c
    ensures parent.Some? ==> r.trace.traceId == parent.value.traceId
    ensures parent.Some? ==> r.trace.parentSpanId == Some(parent.value.spanId)
    ensures parent.Some? ==> r.trace.sampled == parent.value.sampled
    ensures parent.Some? ==> r.trace.spanId == ToHex(DrawsValue(IdDraws(env)))
    ensures parent.Some? ==> r.trace.timestamp == Timestamp(env.clock(0))
    ensures parent.Some? ==> !r.trace.serverOnly
  {
    if parent.None? then
      CreateRootTrace(c, env)
    else
      GeneratedIdIsHexOfValue(IdDraws(env));
      var p := parent.value;
      Derived(Trace(p.traceId, FreshId(env), Some(p.spanId), p.sampled, Timestamp(env.clock(0)), false), c)
  }

  /** The context reached from `t` by deriving one child per environment. */
  function Descend(c: Client, t: Trace, envs: seq<Env>): Trace
    decreases |envs|
  {
    if envs == [] then t else Descend(c, GetChild(c, Some(t), envs[0]).trace, envs[1..])
  }

  /** However deep the derivation, every descendant stays in its ancestor's
      trace and keeps its sampling decision: sampling is decided once, at the
      root, and never re-evaluated. Every proper descendant has a parent. */
  lemma {:induction false} DescendantsKeepTraceAndSampling(c: Client, t: Trace, envs: seq<Env>)
    ensures Descend(c, t, envs).traceId == t.traceId
    ensures Descend(c, t, envs).sampled == t.sampled
    ensures envs != [] ==> Descend(c, t, envs).parentSpanId.Some?
    decreases |envs|
  {
    if envs != [] {
      var child := GetChild(c, Some(t), envs[0]).trace;
      DescendantsKeepTraceAndSampling(c, child, envs[1..]);
    }
  }

  /** Deriving from a root: the child's parent is the root's span, which is
      also the trace id, so a root's child points back at the trace itself. */
  lemma RootChildPointsAtTrace(c: Client, env1: Env, env2: Env)
    ensures var root := CreateRootTrace(c, env1);
            var child := GetChild(root.client, Some(root.trace), env2);
            child.trace.parentSpanId == Some(child.trace.traceId)
            && child.client == root.client
  {
  }
}

=== FILE: optional.dfy ===
/** A JavaScript value that may be `null` or `undefined`. The client meets
    these as a trace argument the caller leaves out, a parent span id only
    child spans carry, and the body fields `parentId`, `timestamp` and
    `duration` that `sendTrace` sets only under some conditions. */
module Optional {

  datatype Option<+T> = None | Some(value: T)
}

=== FILE: recording.dfy ===
/** The record operations (`traceWithAnnotation` and the four `send*`
    wrappers in zipkin-simple.js).

    Each takes a trace (or null) and the caller's data, creates a root when
    the trace is null, and, for a sampled trace, appends the annotation to
    the caller's list and delivers one span. The trace is always handed back
    so the caller can propagate it. */
module Recording {
  import opened Optional
  import opened Sampler
  import opened Config
  import opened Environment
  import opened Lineage
  import opened Assembly

  /** The outcome of one record operation: the client after it, the trace
      handed back, the caller's data after it (the client appends to its
      annotation list in place) and what was delivered, if anything. */
  datatype Recorded = Recorded(client: Client, trace: Trace, data: CallData, sent: Option<Delivery>)

  /** The clock readings left for `sendTrace`: a root created on the way has
      already taken the first one. */
  function SendClock(trace: Option<Trace>, env: Env): nat -> int
  {
    if trace.None? then AfterTick(env).clock else env.clock
  }

  /** `traceWithAnnotation`: a null trace is replaced by a fresh root; an
      unsampled trace comes back with nothing sent and the data untouched;
      a sampled one gets exactly `annotation` appended to the caller's list
      and exactly one delivery, whose last entry is that annotation. */
  function TraceWithAnnotation(c: Client, trace: Option<Trace>, data: CallData,
                               annotation: string, env: Env): (r: Recorded)
    ensures trace.Some? ==> r.trace == trace.value && r.client == c
    ensures trace.None? ==> (r.trace == CreateRootTrace(c, env).trace
                             && r.client == CreateRootTrace(c, env).client)
    ensures !r.trace.sampled ==> r.sent == None && r.data == data
    ensures r.trace.sampled ==> r.data == data.(annotations := data.annotations + [annotation])
    ensures r.trace.sampled ==> r.sent.Some? && r.sent.value.options == r.client.options
    ensures r.sent.Some? ==> r.sent.value.body == AssembleBody(r.trace, r.data, SendClock(trace, env))
    ensures r.sent.Some? ==> |r.sent.value.body.annotations| == |data.annotations| + 1
    ensures r.sent.Some? ==> LastValue(r.sent.value.body) == annotation
  {
    var d := if trace.None? then CreateRootTrace(c, env) else Derived(trace.value, c);
    if !d.trace.sampled then
      Recorded(d.client, d.trace, data, None)
    else
      var data' := data.(annotations := data.annotations + [annotation]);
      Recorded(d.client, d.trace, data', SendTrace(d.client, d.trace, data', SendClock(trace, env)))
  }

  /** The value of a body's last annotation. Every use is about a delivered
      body, which holds at least the annotation just recorded, so the ""
      of the empty case is never reached. */
  function LastValue(b: Body): string
  {
    if b.annotations == [] then "" else b.annotations[|b.annotations| - 1].value
  }

  /** The time a body's annotations carry. As for LastValue, the 0 of the
      empty case is never reached by a delivered body. */
  function SentAt(b: Body): int
  {
    if b.annotations == [] then 0 else b.annotations[|b.annotations| - 1].timestamp
  }

  /** The span a child context reports: sent exactly when the parent was
      sampled, with the client's options, the parent's trace id, the child's
      own span id, and a `parentId` naming the parent's span unless that span
      id is empty (falsy). */
  lemma ChildSpanBody(c: Client, p: Trace, data: CallData, env: Env, clock: nat -> int)
    ensures var child := GetChild(c, Some(p), env).trace;
            var sent := SendTrace(c, child, data, clock);
            && (sent.Some? <==> p.sampled)
            && (sent.Some? ==>
                  && sent.value.options == c.options
                  && sent.value.body.traceId == p.traceId
                  && sent.value.body.id == child.spanId
                  && sent.value.body.parentId == (if p.spanId != "" then Some(p.spanId) else None))
  {
  }

  /** The span a root context reports: sent exactly when the sampler chose
      the root, with no `parentId` and with the span id equal to the trace
      id. */
  lemma RootSpanBody(c: Client, data: CallData, env: Env, clock: nat -> int)
    ensures var root := CreateRootTrace(c, env).trace;
            var sent := SendTrace(c, root, data, clock);
            && (sent.Some? <==> root.sampled)
            && (sent.Some? ==> sent.value.body.parentId == None && sent.value.body.id == sent.value.body.traceId)
  {
  }

  /** Without the server-only mark only a "cr" closes the span. */
  lemma {:induction false} ClosingWithoutServerOnly(values: seq<string>)
    ensures AnyClosing(values, false) <==> "cr" in values
  {
    if values != [] {
      ClosingWithoutServerOnly(values[1..]);
      assert values == [values[0]] + values[1..];
    }
  }

  /** Without the server-only mark only a "cs" opens the span. */
  lemma {:induction false} OpeningWithoutServerOnly(values: seq<string>)
    ensures AnyOpening(values, false) <==> "cs" in values
  {
    if values != [] {
      OpeningWithoutServerOnly(values[1..]);
      assert values == [values[0]] + values[1..];
    }
  }

  /** `sendClientSend`: annotates with "cs", so a delivered span always
      carries a timestamp, the trace's own one when that is non-zero. */
  function SendClientSend(c: Client, trace: Option<Trace>, data: CallData, env: Env): (r: Recorded)
    ensures trace.Some? ==> r.trace == trace.value && r.client == c
    ensures trace.None? ==> r.trace.parentSpanId == None && r.trace.traceId == r.trace.spanId
    ensures !r.trace.sampled ==> r.sent == None && r.data == data
    ensures r.trace.sampled ==> r.sent.Some?
    ensures r.sent.Some? ==> LastValue(r.sent.value.body) == "cs"
    ensures r.sent.Some? ==> r.sent.value.body.timestamp.Some?
    ensures r.sent.Some? && r.trace.timestamp != 0 ==> r.sent.value.body.timestamp == Some(r.trace.timestamp)
    ensures trace.None? ==> (r.trace == CreateRootTrace(c, env).trace
                             && r.client == CreateRootTrace(c, env).client)
    ensures r.trace.sampled ==> r.data == data.(annotations := data.annotations + ["cs"])
    ensures r.sent.Some? ==> r.sent.value.body == AssembleBody(r.trace, r.data, SendClock(trace, env))
  {
    var r := TraceWithAnnotation(c, trace, data, "cs", env);
    assert r.sent.Some? ==> r.data.annotations[|r.data.annotations| - 1] == "cs";
    r
  }

  /** `sendClientRecv`: annotates with "cr", so a delivered span always
      carries the duration from the trace's timestamp to this annotation. */
  function SendClientRecv(c: Client, trace: Option<Trace>, data: CallData, env: Env): (r: Recorded)
    ensures trace.Some? ==> r.trace == trace.value && r.client == c
    ensures trace.None? ==> r.trace.parentSpanId == None && r.trace.traceId == r.trace.spanId
    ensures !r.trace.sampled ==> r.sent == None && r.data == data
    ensures r.trace.sampled ==> r.sent.Some?
    ensures r.sent.Some? ==> LastValue(r.sent.value.body) == "cr"
    ensures r.sent.Some? ==>
              r.sent.value.body.duration == Some(SentAt(r.sent.value.body) - r.trace.timestamp)
    ensures trace.None? ==> (r.trace == CreateRootTrace(c, env).trace
                             && r.client == CreateRootTrace(c, env).client)
    ensures r.trace.sampled ==> r.data == data.(annotations := data.annotations + ["cr"])
    ensures r.sent.Some? ==> r.sent.value.body == AssembleBody(r.trace, r.data, SendClock(trace, env))
  {
    var r := TraceWithAnnotation(c, trace, data, "cr", env);
    assert r.sent.Some? ==> r.data.annotations[|r.data.annotations| - 1] == "cr";
    r
  }

  /** `sendServerSend`: annotates with "ss". On a server-only trace the span
      gets the duration; otherwise it has one only if the caller's list
      already held a "cr". */
  function SendServerSend(c: Client, trace: Option<Trace>, data: CallData, env: Env): (r: Recorded)
    ensures trace.Some? ==> r.trace == trace.value && r.client == c
    ensures trace.None? ==> r.trace.parentSpanId == None && !r.trace.serverOnly
    ensures !r.trace.sampled ==> r.sent == None && r.data == data
    ensures r.trace.sampled ==> r.sent.Some?
    ensures r.sent.Some? ==> LastValue(r.sent.value.body) == "ss"
    ensures r.sent.Some? && r.trace.serverOnly ==>
              r.sent.value.body.duration
              == Some(SentAt(r.sent.value.body) - r.trace.timestamp)
    ensures r.sent.Some? && !r.trace.serverOnly ==>
              (r.sent.value.body.duration.Some? <==> "cr" in data.annotations)
    ensures trace.None? ==> (r.trace == CreateRootTrace(c, env).trace
                             && r.client == CreateRootTrace(c, env).client)
    ensures r.trace.sampled ==> r.data == data.(annotations := data.annotations + ["ss"])
    ensures r.sent.Some? ==> r.sent.value.body == AssembleBody(r.trace, r.data, SendClock(trace, env))
  {
    var r := TraceWithAnnotation(c, trace, data, "ss", env);
    assert r.sent.Some? ==> r.data.annotations[|r.data.annotations| - 1] == "ss";
    ClosingWithoutServerOnly(data.annotations + ["ss"]);
    r
  }

  /** `sendServerRecv`: annotates with "sr". With no trace it creates a root
      stamped with the first clock reading and marks it server-only, so a
      delivered span carries a timestamp, the trace's own one when that is
      non-zero, and the handed-back trace is server-only; a given trace
      passes through unmarked. */
  function SendServerRecv(c: Client, trace: Option<Trace>, data: CallData, env: Env): (r: Recorded)
    ensures trace.Some? ==> r.trace == trace.value && r.client == c
    ensures trace.None? ==>
              r.trace.serverOnly && r.trace.parentSpanId == None && r.trace.traceId == r.trace.spanId
    ensures trace.None? ==>
              (r.trace.sampled == ShouldSample(c.counter, Rate(c.options)).sampled
               && r.client == c.(counter := ShouldSample(c.counter, Rate(c.options)).counter))
    ensures !r.trace.sampled ==> r.sent == None && r.data == data
    ensures r.trace.sampled ==> r.sent.Some?
    ensures trace.None? ==> r.trace.timestamp == Timestamp(env.clock(0))
    ensures r.trace.sampled ==> r.data == data.(annotations := data.annotations + ["sr"])
    ensures r.sent.Some? ==> r.sent.value.body == AssembleBody(r.trace, r.data, SendClock(trace, env))
    ensures r.sent.Some? ==> LastValue(r.sent.value.body) == "sr"
    ensures r.sent.Some? && r.trace.serverOnly ==> r.sent.value.body.timestamp.Some?
    ensures r.sent.Some? && r.trace.serverOnly && r.trace.timestamp != 0 ==>
              r.sent.value.body.timestamp == Some(r.trace.timestamp)
    ensures r.sent.Some? && !r.trace.serverOnly ==>
              (r.sent.value.body.timestamp.Some? <==> "cs" in data.annotations)
  {
    var r := if trace.None? then
               var root := CreateRootTrace(c, env);
               TraceWithAnnotation(root.client, Some(root.trace.(serverOnly := true)), data, "sr", AfterTick(env))
             else
               TraceWithAnnotation(c, trace, data, "sr", env);
    assert r.sent.Some? ==> r.data.annotations[|r.data.annotations| - 1] == "sr";
    OpeningWithoutServerOnly(data.annotations + ["sr"]);
    r
  }

  /** A client send with no trace starts a new trace: the root takes one
      sampler step, and a sent span has no parent, names the new trace and
      carries exactly the one "cs" entry at the second clock reading. */
  lemma ClientSendWithoutTrace(c: Client, service: string, name: string, env: Env)
    ensures var r := SendClientSend(c, None, CallData(service, name, []), env);
            && r.client == CreateRootTrace(c, env).client
            && r.trace.sampled == ShouldSample(c.counter, Rate(c.options)).sampled
            && (r.sent.Some? ==>
                  && r.sent.value.body.parentId == None
                  && r.sent.value.body.traceId == r.trace.traceId
                  && r.sent.value.body.id == r.trace.traceId
                  && r.sent.value.body.annotations == [Entry(service, Timestamp(env.clock(1)), "cs")])
  {
  }

  /** A client span over two calls with fresh call data each time: the "cs"
      span carries the timestamp and no duration, the "cr" span the duration
      and no timestamp. */
  lemma ClientSpanAcrossTwoCalls(c: Client, t: Trace, service: string, name: string, env1: Env, env2: Env)
    requires t.sampled
    ensures var first := SendClientSend(c, Some(t), CallData(service, name, []), env1);
            var second := SendClientRecv(first.client, Some(first.trace), CallData(service, name, []), env2);
            && first.sent.Some? && first.sent.value.body.timestamp.Some? && first.sent.value.body.duration.None?
            && second.sent.Some? && second.sent.value.body.duration.Some? && second.sent.value.body.timestamp.None?
  {
    ClosingWithoutServerOnly(["cs"]);
    OpeningWithoutServerOnly(["cr"]);
  }

  /** A server that received no context times the whole span itself: the
      "sr" span carries the timestamp and no duration, the "ss" span on the
      handed-back trace carries the duration and no timestamp. An unsampled
      root sends neither. */
  lemma ServerOnlySpanAcrossTwoCalls(c: Client, service: string, name: string, env1: Env, env2: Env)
    ensures var first := SendServerRecv(c, None, CallData(service, name, []), env1);
            var second := SendServerSend(first.client, Some(first.trace), CallData(service, name, []), env2);
            && (first.trace.sampled ==>
                  && first.sent.Some? && first.sent.value.body.duration.None?
                  && first.trace.timestamp == Timestamp(env1.clock(0))
                  && (first.trace.timestamp != 0 ==>
                        first.sent.value.body.timestamp == Some(first.trace.timestamp))
                  && (first.trace.timestamp == 0 ==> first.sent.value.body.timestamp.Some?)
                  && second.sent.Some? && second.sent.value.body.timestamp.None?
                  && second.sent.value.body.duration == Some(SentAt(second.sent.value.body) - first.trace.timestamp))
            && (!first.trace.sampled ==> first.sent.None? && second.sent.None?)
  {
    var first := SendServerRecv(c, None, CallData(service, name, []), env1);
    var second := SendServerSend(first.client, Some(first.trace), CallData(service, name, []), env2);
    if first.trace.sampled {
      assert first.data.annotations == ["sr"];
      assert !AnyClosing(["sr"], true);
      assert second.data.annotations == ["ss"];
      assert !AnyOpening(["ss"], true);
    }
  }

  /** A server-only span's duration is the time between the "sr" call's
      first clock reading (the root's stamp) and the "ss" call's first one
      (the time its entries carry), in microseconds. */
  lemma ServerOnlyDurationIsElapsed(c: Client, service: string, name: string, env1: Env, env2: Env)
    ensures var first := SendServerRecv(c, None, CallData(service, name, []), env1);
            var second := SendServerSend(first.client, Some(first.trace), CallData(service, name, []), env2);
            second.sent.Some? ==>
              second.sent.value.body.duration == Some((env2.clock(0) - env1.clock(0)) * ToMicroseconds)
  {
    var first := SendServerRecv(c, None, CallData(service, name, []), env1);
    var second := SendServerSend(first.client, Some(first.trace), CallData(service, name, []), env2);
    if second.sent.Some? {
      assert first.trace.serverOnly && first.trace.timestamp == Timestamp(env1.clock(0));
      var body := second.sent.value.body;
      assert second.data.annotations == ["ss"];
      assert SentAt(body) == Timestamp(env2.clock(0));
      ElapsedMicroseconds(env1.clock(0), env2.clock(0));
    }
  }

  /** A server span on a propagated (not server-only) trace carries neither
      field: timing belongs to the caller's client span. */
  lemma PropagatedServerSpanHasNoTiming(c: Client, t: Trace, service: string, name: string, env1: Env, env2: Env)
    requires t.sampled && !t.serverOnly
    ensures var first := SendServerRecv(c, Some(t), CallData(service, name, []), env1);
            var second := SendServerSend(first.client, Some(first.trace), CallData(service, name, []), env2);
            && first.sent.Some? && first.sent.value.body.timestamp.None? && first.sent.value.body.duration.None?
            && second.sent.Some? && second.sent.value.body.timestamp.None? && second.sent.value.body.duration.None?
  {
    ClosingWithoutServerOnly(["sr"]);
    OpeningWithoutServerOnly(["ss"]);
  }

  /** Passing the same call data to a second call makes the entries pile up:
      the client appends to the caller's list, so the "cr" span also repeats
      the "cs" entry and carries both the timestamp and the duration. */
  lemma ReusedCallDataAccumulates(c: Client, t: Trace, data: CallData, env1: Env, env2: Env)
    requires t.sampled && data.annotations == []
    ensures var first := SendClientSend(c, Some(t), data, env1);
            var second := SendClientRecv(first.client, Some(first.trace), first.data, env2);
            && second.data.annotations == ["cs", "cr"]
            && second.sent.Some?
            && |second.sent.value.body.annotations| == 2
            && second.sent.value.body.annotations[0].value == "cs"
            && second.sent.value.body.timestamp.Some?
            && second.sent.value.body.duration.Some?
  {
    var first := SendClientSend(c, Some(t), data, env1);
    assert first.data.annotations == ["cs"];
    assert first.data.annotations + ["cr"] == ["cs", "cr"];
  }
}

=== FILE: sampler.dfy ===
/** The periodic sampler (`shouldSample` in zipkin-simple.js).

    The client keeps one counter. Every root trace bumps it; once
    `counter * rate` reaches 1 the trace is sampled and the counter starts
    again from zero. The rate is a JavaScript float in the source; here it is
    an exact `real`. */
module Sampler {

  /** `n * rate`, written as repeated addition so that the solver reasons
      about it linearly; TimesIsProduct shows it is the product. */
  function Times(n: nat, rate: real): real
  {
    if n == 0 then 0.0 else Times(n - 1, rate) + rate
  }

  lemma AddOneTimes(a: real, rate: real)
    ensures (a + 1.0) * rate == a * rate + rate
  {
  }

  lemma {:induction false} TimesIsProduct(n: nat, rate: real)
    ensures Times(n, rate) == n as real * rate
  {
    if n > 0 {
      TimesIsProduct(n - 1, rate);
      AddOneTimes((n - 1) as real, rate);
      assert n as real == (n - 1) as real + 1.0;
    }
  }

  /** The outcome of one `shouldSample` call: the decision and the counter
      it leaves behind. */
  datatype Decision = Decision(sampled: bool, counter: nat)

  /** One `shouldSample` call on a client whose counter is `counter`: the
      call samples exactly when the bumped counter times the rate reaches 1,
      so a rate of zero or below never samples. After it, `counter * rate < 1`
      holds whatever held before, a sampled call is the one that resets the
      counter, and an unsampled call only bumps it. */
  function ShouldSample(counter: nat, rate: real): (d: Decision)
    ensures d.sampled <==> Times(counter + 1, rate) >= 1.0
    ensures rate <= 0.0 ==> !d.sampled
    ensures Times(d.counter, rate) < 1.0
    ensures d.sampled <==> d.counter == 0
    ensures !d.sampled ==> d.counter == counter + 1
  {
    var next := counter + 1;
    assert rate <= 0.0 ==> Times(next, rate) <= 0.0 by {
      if rate <= 0.0 {
        TimesNonPositive(next, rate);
      }
    }
    if Times(next, rate) >= 1.0 then Decision(true, 0) else Decision(false, next)
  }

  /** The decisions of `n` successive calls and the counter left at the end. */
  datatype Run = Run(decisions: seq<bool>, counter: nat)

  /** `n` successive `shouldSample` calls from `counter`: one decision per
      call, and after at least one call the counter left behind keeps
      `counter * rate < 1`. */
  function Repeat(counter: nat, rate: real, n: nat): (r: Run)
    ensures |r.decisions| == n
    ensures n > 0 ==> Times(r.counter, rate) < 1.0
    decreases n
  {
    if n == 0 then Run([], counter)
    else
      var d := ShouldSample(counter, rate);
      var rest := Repeat(d.counter, rate, n - 1);
      Run([d.sampled] + rest.decisions, rest.counter)
  }

  /** The last call of a run samples exactly when it leaves the counter at
      zero, and a run with no sampled call has only bumped the counter, once
      per call. */
  lemma {:induction false} RepeatEnds(counter: nat, rate: real, n: nat)
    ensures n > 0 ==> (Repeat(counter, rate, n).decisions[n - 1] <==> Repeat(counter, rate, n).counter == 0)
    ensures (forall i :: 0 <= i < n ==> !Repeat(counter, rate, n).decisions[i])
            ==> Repeat(counter, rate, n).counter == counter + n
    decreases n
  {
    if n > 0 {
      var d := ShouldSample(counter, rate);
      var r := Repeat(counter, rate, n);
      var rest := Repeat(d.counter, rate, n - 1);
      RepeatEnds(d.counter, rate, n - 1);
      if n == 1 {
        assert r.counter == d.counter;
      } else {
        assert r.decisions[n - 1] == rest.decisions[n - 2];
      }
      if forall i :: 0 <= i < n ==> !r.decisions[i] {
        assert !r.decisions[0];
        forall i | 0 <= i < n - 1
          ensures !rest.decisions[i]
        {
          assert r.decisions[i + 1] == rest.decisions[i];
        }
      }
    }
  }

  /** `p` calls make one period at `rate`: `p` is the least positive count
      whose product with the rate reaches 1. */
  predicate IsPeriod(rate: real, p: nat)
  {
    p >= 1 && Times(p - 1, rate) < 1.0 <= Times(p, rate)
  }

  lemma MulLeq(a: real, b: real, r: real)
    requires a <= b && r >= 0.0
    ensures a * r <= b * r
  {
  }

  /** The period of a positive rate: the ceiling of its reciprocal. */
  function Period(rate: real): (p: nat)
    requires rate > 0.0
    ensures IsPeriod(rate, p)
  {
    var q := 1.0 / rate;
    assert q * rate == 1.0;
    var f := q.Floor;
    assert f as real <= q;
    assert 0 <= f by {
      assert q > 0.0;
    }
    var p: nat := if f as real == q then f else f + 1;
    TimesIsProduct(p, rate);
    TimesIsProduct(p - 1, rate);
    if f as real == q then
      assert f >= 1 by {
        assert q != 0.0;
      }
      assert (p - 1) as real == q - 1.0;
      p
    else
      assert f as real < q;
      assert (p - 1) as real < q;
      assert (p - 1) as real * rate < q * rate by {
        MulLeq((p - 1) as real, q, rate);
        assert (p - 1) as real * rate != q * rate;
      }
      assert p as real > q;
      MulLeq(q, p as real, rate);
      p
  }

  /** Below a positive rate's period the product stays under 1. */
  lemma {:induction false} TimesMonotone(m: nat, n: nat, rate: real)
    requires m <= n && rate >= 0.0
    ensures Times(m, rate) <= Times(n, rate)
    decreases n
  {
    if m < n {
      TimesMonotone(m, n - 1, rate);
    }
  }

  /** Inside a period the counter only climbs; the call that brings it to the
      period samples and resets it. */
  lemma StepWithinPeriod(counter: nat, rate: real, p: nat)
    requires IsPeriod(rate, p) && counter < p
    ensures ShouldSample(counter, rate).sampled <==> counter + 1 == p
    ensures ShouldSample(counter, rate).counter == (counter + 1) % p
  {
    assert rate > 0.0 by {
      if rate <= 0.0 {
        TimesNonPositive(p, rate);
      }
    }
    if counter + 1 < p {
      TimesMonotone(counter + 1, p - 1, rate);
    }
  }

  lemma {:induction false} TimesNonPositive(n: nat, rate: real)
    requires rate <= 0.0
    ensures Times(n, rate) <= 0.0
  {
    if n > 0 {
      TimesNonPositive(n - 1, rate);
    }
  }

  lemma MulAtLeast(a: int, p: int)
    requires a >= 1 && p > 0
    ensures a * p >= p
  {
  }

  /** `x % p` is the remainder of any division of `x` by `p`. */
  lemma ModUnique(x: int, p: int, q: int, r: int)
    requires p > 0 && 0 <= r < p && x == q * p + r
    ensures x % p == r
  {
    var q', r' := x / p, x % p;
    assert x == q' * p + r';
    if q > q' {
      assert (q - q') * p == r' - r;
      MulAtLeast(q - q', p);
    } else if q < q' {
      assert (q' - q) * p == r - r';
      MulAtLeast(q' - q, p);
    }
  }

  lemma ModShift(c: nat, k: nat, p: nat)
    requires p >= 1 && c + 1 <= p
    ensures ((c + 1) % p + k) % p == (c + 1 + k) % p
  {
    if c + 1 == p {
      ModUnique(c + 1, p, 1, 0);
      ModUnique(p + k, p, k / p + 1, k % p);
    } else {
      ModUnique(c + 1, p, 0, c + 1);
    }
  }

  /** From a counter inside a period, call number `i` (counting from zero)
      samples exactly when `counter + i + 1` is a multiple of the period, and
      after `n` calls the counter is `(counter + n) % p`. */
  lemma {:induction false} RepeatIsPeriodic(counter: nat, rate: real, p: nat, n: nat)
    requires IsPeriod(rate, p) && counter < p
    ensures Repeat(counter, rate, n).counter == (counter + n) % p
    ensures forall i :: 0 <= i < n ==>
              (Repeat(counter, rate, n).decisions[i] <==> (counter + i + 1) % p == 0)
    decreases n
  {
    if n > 0 {
      var d := ShouldSample(counter, rate);
      StepWithinPeriod(counter, rate, p);
      RepeatIsPeriodic(d.counter, rate, p, n - 1);
      var r := Repeat(counter, rate, n);
      var rest := Repeat(d.counter, rate, n - 1);
      ModShift(counter, n - 1, p);
      forall i | 0 <= i < n
        ensures r.decisions[i] <==> (counter + i + 1) % p == 0
      {
        if i == 0 {
          assert r.decisions[0] == d.sampled;
          if counter + 1 < p {
            assert (counter + 1) % p == counter + 1;
          }
        } else {
          assert r.decisions[i] == rest.decisions[i - 1];
          ModShift(counter, i, p);
        }
      }
    }
  }

  /** At a rate of zero or below no call ever samples and the counter climbs
      by one per call. */
  lemma NonPositiveRateNeverSamples(counter: nat, rate: real, n: nat)
    requires rate <= 0.0
    ensures forall i :: 0 <= i < n ==> !Repeat(counter, rate, n).decisions[i]
    ensures Repeat(counter, rate, n).counter == counter + n
    decreases n
  {
    if n > 0 {
      var d := ShouldSample(counter, rate);
      NonPositiveRateNeverSamples(d.counter, rate, n - 1);
    }
  }

  /** A counter at or above the period (left behind when the rate was raised
      by `setOptions`) makes the next call sample and reset, so every run is
      periodic after at most one call. */
  lemma AtOrAbovePeriodResets(counter: nat, rate: real, p: nat)
    requires IsPeriod(rate, p) && counter >= p
    ensures ShouldSample(counter, rate) == Decision(true, 0)
  {
    assert rate > 0.0 by {
      if rate <= 0.0 {
        TimesNonPositive(p, rate);
      }
    }
    TimesMonotone(p, counter + 1, rate);
  }

  /** At a rate of 1 or more every call of any run samples and leaves the
      counter at zero. */
  lemma {:induction false} FullOrHigherRateAlwaysSamples(counter: nat, rate: real, n: nat)
    requires rate >= 1.0
    ensures forall i :: 0 <= i < n ==> Repeat(counter, rate, n).decisions[i]
    ensures n > 0 ==> Repeat(counter, rate, n).counter == 0
    decreases n
  {
    if n > 0 {
      TimesMonotone(1, counter + 1, rate);
      var d := ShouldSample(counter, rate);
      assert d == Decision(true, 0);
      FullOrHigherRateAlwaysSamples(0, rate, n - 1);
      var r := Repeat(counter, rate, n);
      var rest := Repeat(0, rate, n - 1);
      forall i | 0 <= i < n
        ensures r.decisions[i]
      {
        if i > 0 {
          assert r.decisions[i] == rest.decisions[i - 1];
        }
      }
    }
  }

  /** On a fresh client (counter 0) with a positive rate, call number `i`
      samples exactly when `i + 1` is a multiple of the period. */
  lemma FreshClientSamplesOncePerPeriod(rate: real, n: nat)
    requires rate > 0.0
    ensures forall i :: 0 <= i < n ==>
              (Repeat(0, rate, n).decisions[i] <==> (i + 1) % Period(rate) == 0)
  {
    RepeatIsPeriodic(0, rate, Period(rate), n);
  }

  /** At rate 0.5 a fresh client decides false, true, false, true. */
  lemma HalfRateAlternates()
    ensures Repeat(0, 0.5, 4).decisions == [false, true, false, true]
  {
    assert IsPeriod(0.5, 2);
    RepeatIsPeriodic(0, 0.5, 2, 4);
  }

  /** At rate 1 every call samples and the counter stays at zero. */
  lemma FullRateAlwaysSamples(n: nat)
    ensures forall i :: 0 <= i < n ==> Repeat(0, 1.0, n).decisions[i]
    ensures Repeat(0, 1.0, n).counter == 0
  {
    assert IsPeriod(1.0, 1);
    RepeatIsPeriodic(0, 1.0, 1, n);
  }

  /** At the default rate 0.1 one root trace in ten is sampled. */
  lemma DefaultRatePeriodIsTen()
    ensures Period(0.1) == 10
  {
    assert IsPeriod(0.1, 10);
    PeriodIsUnique(0.1, Period(0.1), 10);
  }

  /** A rate has only one period. */
  lemma PeriodIsUnique(rate: real, p: nat, q: nat)
    requires IsPeriod(rate, p) && IsPeriod(rate, q)
    ensures p == q
  {
    assert rate > 0.0 by {
      if rate <= 0.0 {
        TimesNonPositive(p, rate);
      }
    }
    if p < q {
      TimesMonotone(p, q - 1, rate);
    } else if q < p {
      TimesMonotone(q, p - 1, rate);
    }
  }
}
